=== FILE: README.md ===
# Brick breaker game rules in Dafny

This project models the rules of a single-player brick breaker. A paddle
deflects a ball to destroy a grid of 24 bricks. The player has three spare
lives. The model is a pure state machine over integer geometry. The modelled
code is the second set of class definitions in `BrickGame.py` (lines
219-561). Those definitions shadow the first set, so they are the ones that
run.

- `geometry.dfy` (`Geometry`): axis-aligned bounding boxes `(left, top, right, bottom)`, as the canvas reports them.
- `particles.dfy` (`Particles`): trail and burst particles, modelled by their remaining lifetime, and the game's particle update.
- `balls.dfy` (`Balls`): ball motion with wall reflection, and the three-zone collision tie-break.
- `paddles.dfy` (`Paddles`): the all-or-nothing paddle move that carries the ball.
- `bricks.dfy` (`Bricks`): hit counts, the colour table and destruction into a burst of particles.
- `grid.dfy` (`Grid`): the initial layout, one column for every x in `range(5, width - 5, 75)`.
- `game.dfy` (`BrickGame`): the game state, its invariant `Valid`, and one `Step` per input event. The events are the arrow keys, the space key, a tick of the game loop, and the timer that sets up the next round.

Units and representation:

- Canvas coordinates are integers in the source's own units. Every coordinate of the paddle, the ball and the bricks is whole: the paddle spans 265..345, the ball is centred on the paddle, and bricks span x..x+75. Particle positions are not whole (bursts start at a brick's centre, trails move by 2.5 and shrink by 0.25), and they are not modelled.
- Centres are stated doubled. A brick centred at x + 37.5 has `left + right == 2 * x + 75`. The ball's centre is compared with an edge as `left + right > 2 * edge`.
- Particle lifetimes are counted in half ticks, so the burst decrement of 0.5 becomes 1.
- The playfield is 610 by 400. Lives start at 3.
- Canvas item handles count from 1 in creation order: the paddle is 1 and the bricks are 2 to 25.
- The canvas's overlap query is an input of the tick event: the handles overlapping the ball, each listed once. The game's `items` dictionary (BrickGame.py:436-439, 475) is never pruned: a destroyed brick only has its canvas item deleted (line 364) and stays in the dictionary. The model's registry instead holds only the live bricks, and the tick keeps the overlapping handles that are the paddle or a live brick. Both give the same objects because the canvas never reports a deleted item as overlapping.

Behaviour of the code worth spelling out:

- The arrow keys are bound once and never unbound (BrickGame.py:450-453). So the paddle moves in every phase, including after a win or a loss.
- A ball heading (1, -1) with its left edge at the wall turns to (-1, -1). On the next update it is still past the wall and has reached the top, so it turns to (1, 1) (BrickGame.py:250-253). `Balls.LeftWallThenTopWall` states this.
- The space key runs the first tick of the game loop immediately (`start_game` calls `game_loop` directly). So the launch event carries an overlap set, like a tick.

## Model

| member | source | states |
|---|---|---|
| Balls.NewBall | BrickGame.py:235-243 | a new ball has radius 10 around the given centre, direction (1, -1) and speed 5 |
| Balls.Advance | BrickGame.py:245-261 | horizontal direction flips iff left <= 0 or right >= width, vertical iff top <= 0, judged before moving; the ball then moves by exactly (dx * speed, dy * speed) with its size kept; unit directions stay unit; exactly 2 fresh trail particles are emitted |
| Balls.Bounce | BrickGame.py:263-276 | more than one collider: only dy flips; exactly one: dx = +1 if the ball's centre is right of the collider's right edge, else dx = -1 if left of its left edge, else dy flips; none: ball unchanged; position and speed never change |
| Balls.WedgedBounceIgnoresGeometry | BrickGame.py:266-267 | with two or more colliders the result does not depend on where the colliders are or in which order they come, and dy always flips |
| Balls.NoFloorReflection | BrickGame.py:249-253 | below the top wall a ball keeps its vertical direction however far down it is: there is no floor reflection (a corollary of Advance) |
| Balls.LeftWallThenTopWall | BrickGame.py:249-258 | a ball at the left wall heading (1, -1) turns to (-1, -1), then, still at the left wall and now at the top, to (1, 1) |
| Paddles.NewPaddle | BrickGame.py:322-331 | a new paddle is 80 by 10 around the given centre and carries no ball |
| Paddles.Move | BrickGame.py:336-342 | the whole offset is applied iff left + offset >= 0 and right + offset <= width, otherwise neither paddle nor ball moves; a carried ball shifts by the same offset, an uncarried one never moves; nothing moves vertically; a paddle inside [0, width] stays inside |
| Paddles.MoveUndo | BrickGame.py:336-342 | an accepted move is undone exactly, for the paddle and the carried ball, by the opposite move |
| Paddles.RightEdgeRejectsMove | BrickGame.py:339-342 | a paddle within 10 of the right edge ignores a right step of 10 entirely: there is no clamping |
| Paddles.SetBall | BrickGame.py:333-334 | attaching the ball marks the paddle as carrying it and leaves its position alone |
| Paddles.ReleaseBall | BrickGame.py:492 | launching marks the paddle as no longer carrying the ball and leaves its position alone |
| Bricks.NewBrick | BrickGame.py:348-357 | a new brick is 75 by 20, centred at left + 37.5 and at the given y, with the colour of its hit count |
| Bricks.Hit | BrickGame.py:360-367 | a hit lowers the count by exactly 1; at 0 the brick is destroyed, keeps its last colour and releases 20 fresh burst particles of that colour; otherwise it takes the colour of the new count and releases nothing |
| Bricks.HitTimes | BrickGame.py:360-366 | after n hits, with n no more than the count, a brick's count is its original count minus n and it is intact while the count is positive |
| Bricks.DestroyedByItsHitCount | BrickGame.py:360-364 | a brick with count h survives h - 1 hits and is destroyed by the h-th |
| Bricks.HitRecolours | BrickGame.py:346-366 | hitting a 3-count brick colours it #ED639E, hitting a 2-count brick colours it #4535AA, hitting a 1-count brick destroys it with 20 particles |
| Particles.Update | BrickGame.py:301-306 | for a trail particle (lines 301-306) and a burst particle (lines 401-406) alike, an update strictly lowers the lifetime, reports the particle alive iff the lowered lifetime is positive, and keeps its kind and colour |
| Particles.AgedLife | BrickGame.py:401-406 | for a burst particle (lines 401-406) and a trail particle (lines 301-306) alike, after n updates the lifetime has fallen by exactly n times the per-update decay |
| Particles.TrailExpiresOnTenthUpdate | BrickGame.py:293-306 | a fresh trail particle reports alive on its first 9 updates and expired on its 10th |
| Particles.BurstExpiresOnFortiethUpdate | BrickGame.py:393-406 | a fresh burst particle reports alive on its first 39 updates and expired on its 40th |
| Particles.Survivors | BrickGame.py:556-561 | the kept particles all have positive lifetime, each is the updated form of some particle whose update returned true, and every such updated particle is kept |
| Particles.SurvivorsSnoc | BrickGame.py:557-559 | updating one more particle at the end appends its updated form iff its update reports it alive |
| Particles.SurvivorsAppend | BrickGame.py:556-561 | updating a concatenation keeps the survivors of each part, in their original order |
| Particles.UpdateParticles | BrickGame.py:556-561 | the loop keeps exactly the survivors, in order, and no expired particle |
| Grid.Columns | BrickGame.py:442 | range(start, stop, 75) has (stop - start + 74) / 75 elements, the k-th being start + 75 * k |
| Grid.Layout | BrickGame.py:442-445 | bricks are created three per column: brick k is in column k / 3 and row k % 3 |
| Grid.InitialLayoutAt | BrickGame.py:442-445 | on the 610-wide playfield there are 24 bricks; brick k has left edge 5 + 75 * (k / 3), centre y 50, 70 or 90 and count 3, 2 or 1 by row k % 3, and is intact |
| Grid.EightColumns | BrickGame.py:442 | range(5, 605, 75) is the 8 columns 5, 80, ..., 530 |
| BrickGame.BrickMap | BrickGame.py:473-475 | the k-th brick created is registered under handle first + k, and under no other handle |
| BrickGame.InitialRegistry | BrickGame.py:441-445 | the initial registry holds exactly the 24 handles 2 to 25, handle h holding layout brick h - 2, all intact |
| BrickGame.SetupRound | BrickGame.py:465-471 | a round starts with a new ball centred on the paddle at y = 310, heading (1, -1), carried by the paddle, awaiting launch, and lives, bricks and particles untouched |
| BrickGame.Init | BrickGame.py:426-448 | the opening state satisfies the game invariant, with 3 lives, 24 bricks, no particles, the paddle at 265..345 x 321..331 and the ball above it at 295..315 x 300..320 |
| BrickGame.MovePaddle | BrickGame.py:450-453 | an arrow key moves the paddle by -10 or +10 when that stays inside the playfield; the carried ball moves by the same offset with its direction and speed kept, and only while awaiting launch; the invariant is kept |
| BrickGame.Registered | BrickGame.py:550-553 | the touched objects are the overlapping handles that are the paddle or a live brick, each listed once |
| BrickGame.HitOne | BrickGame.py:278-280 | touching the paddle changes nothing; touching a brick replaces it by its hit result, or removes it and appends its burst |
| BrickGame.HitAllBricks | BrickGame.py:278-280 | each touched brick takes exactly one hit and leaves the registry iff that was its last; untouched bricks are unchanged; no brick is added |
| BrickGame.HitAllParticles | BrickGame.py:378-385 | collisions keep the existing particles as a prefix and append only fresh burst particles |
| BrickGame.HitAllBurstCount | BrickGame.py:383-385 | exactly 20 particles are appended per brick that left the registry |
| BrickGame.CheckCollisions | BrickGame.py:550-554 | resolving collisions changes neither the paddle, the lives nor the phase, nor the ball's position; it keeps the ball's direction unit, the bricks intact and the particles alive |
| BrickGame.Boxes | BrickGame.py:553-554 | the collider bounds are, entry by entry, the paddle's box for the paddle and the brick's box for a brick |
| BrickGame.CollisionBounce | BrickGame.py:550-554 | in a tick the ball bounces off the registered objects it overlaps: several flip only dy; exactly one applies the three-zone rule against that object's box; none leaves the ball unchanged; position and speed stay |
| BrickGame.CollisionParticles | BrickGame.py:378-385 | collisions keep the existing particles as a prefix, in order, and append exactly 20 fresh burst particles per brick that left the registry, and nothing else |
| BrickGame.CollisionHits | BrickGame.py:550-554 | each live brick in the overlap loses exactly one hit and is removed iff its count was 1; a surviving brick becomes exactly its hit result, keeping its box; every other brick is unchanged |
| BrickGame.GameLoop | BrickGame.py:532-548 | after collisions: no brick left means Won with nothing else changed; otherwise the ball at the floor costs one life, giving Lost iff no life was left and otherwise the round-over pause, with ball, paddle, bricks and particles as collisions left them; otherwise the ball advances and the particles are updated, with paddle and bricks as collisions left them; the invariant is kept |
| BrickGame.Launch | BrickGame.py:489-493 | launch detaches the ball from the paddle and starts the loop, with the ball, the paddle's box, lives, bricks and particles unchanged |
| BrickGame.Step | BrickGame.py:450-462 | every event keeps the game invariant (paddle within the playfield, unit ball direction, intact bricks, live particles, Won iff no brick, Lost iff lives < 0); lives fall by at most one; Won and Lost are final |
| BrickGame.Run | BrickGame.py:450-462 | any sequence of events from a valid game ends in a valid game |
| BrickGame.DropCostsOneLife | BrickGame.py:538-544 | a ball drop costs exactly one life and loses the game iff no life was left; no other event costs a life |
| BrickGame.LivesAccounting | BrickGame.py:538-544 | along any run the lives lost equal the drops, the game is lost iff the drops exceed the lives left, and the drops never exceed lives + 1 |
| BrickGame.FourthDropLoses | BrickGame.py:538-544 | from the opening state, with 3 lives, a run has at most 4 drops and ends Lost iff it had exactly 4 |
| BrickGame.LaunchReleasesBall | BrickGame.py:489-493 | after launch the paddle no longer carries the ball, so later arrow keys leave the ball where it is |

## Left out

- The first, shadowed copies of the classes (BrickGame.py lines 8-217) are dead code.
- Drawing is not modelled: canvas shape creation, recolouring and deletion, the lives readout, the "Press Space to start" prompt, and the win and game-over texts. The registry map and the `lives` field carry the state those drawings show.
- Audio is not modelled: the hit sound, the soundtrack and its `music_playing` flag, and the win and game-over music. It is foreign I/O with no effect on the rules.
- The canvas's overlap query is not computed from geometry. It is an input of the tick, required to list each handle at most once, as the canvas does. It is also taken never to report a deleted canvas item: the model drops destroyed bricks from its registry, while the source keeps them in `items` and relies on the canvas for this.
- The `after` scheduling delays (50 ms per tick, 1000 ms before the next round) and the key bindings are not modelled as timing. They become explicit events, and `Step` ignores an event whose callback would not be armed or bound in the current phase.
- The playfield width comes from `winfo_width()` in the source; here it is the constant 610 passed as a parameter.
- Setting `speed` to None on a win or a loss has no field of its own. The Won, Lost and round-over phases never advance the ball again, which is all that None does.
- Particle positions, the random burst velocities, the trail speed of half the ball's, the 0.25 shrink of the drawn oval and the `size` counters are left out. They are cosmetic floating-point and random behaviour; particles are modelled by lifetime, kind and colour only.
- Bricks.Hit: the hit sound played after every hit is not modelled (audio).
- Bricks.NewBrick and Bricks.Hit require a hit count that has a colour. For a count without one the source raises KeyError when it looks up the colour (BrickGame.py:352, 366). No call site reaches that case: bricks are created with counts 3, 2 and 1, and a hit that leaves a positive count always leaves 1 or 2.

=== FILE: balls.dfy ===
/**
 * The ball: a circle of radius 10 moving diagonally at speed 5, reflected
 * by the left, right and top walls but not by the floor, and deflected by
 * the paddle and the bricks through a three-zone tie-break rule.
 */
module Balls {
  import opened Geometry
  import opened Particles

  const Radius: int := 10
  const Speed: int := 5
  /** Trail particles emitted by one ball update. */
  const TrailsPerUpdate: nat := 2

  /** The ball's bounds, its direction (dx, dy) and its speed. */
  datatype Ball = Ball(box: Box, dx: int, dy: int, speed: int)

  predicate UnitDirection(b: Ball)
  {
    (b.dx == 1 || b.dx == -1) && (b.dy == 1 || b.dy == -1)
  }

  /** A new ball centred on (x, y), heading up and to the right. */
  function NewBall(x: int, y: int): (b: Ball)
    ensures UnitDirection(b) && b.dx == 1 && b.dy == -1 && b.speed == Speed
    ensures b.box.left + b.box.right == 2 * x && b.box.top + b.box.bottom == 2 * y
    ensures b.box.Width() == 2 * Radius && b.box.Height() == 2 * Radius
  {
    Ball(Centred(x, y, Radius, Radius), 1, -1, Speed)
  }

  /** The ball touches the left or the right wall of a playfield of the given width. */
  predicate AtSideWall(box: Box, width: int)
  {
    box.left <= 0 || box.right >= width
  }

  /**
   * One update of the ball: reflect off the walls, judged on the bounds
   * before moving, then move by direction times speed, leaving two fresh
   * trail particles behind.
   */
  function Advance(b: Ball, width: int): (r: (Ball, seq<Particle>))
    ensures AtSideWall(b.box, width) ==> r.0.dx == -b.dx
    ensures !AtSideWall(b.box, width) ==> r.0.dx == b.dx
    ensures b.box.top <= 0 ==> r.0.dy == -b.dy
    ensures b.box.top > 0 ==> r.0.dy == b.dy
    ensures r.0.box.left - b.box.left == r.0.dx * b.speed
    ensures r.0.box.top - b.box.top == r.0.dy * b.speed
    ensures r.0.box.Width() == b.box.Width() && r.0.box.Height() == b.box.Height()
    ensures r.0.speed == b.speed
    ensures UnitDirection(b) ==> UnitDirection(r.0)
    ensures |r.1| == TrailsPerUpdate
    ensures forall i :: 0 <= i < |r.1| ==> r.1[i] == NewTrail()
  {
    var dx := if AtSideWall(b.box, width) then -b.dx else b.dx;
    var dy := if b.box.top <= 0 then -b.dy else b.dy;
    (Ball(Translate(b.box, dx * b.speed, dy * b.speed), dx, dy, b.speed), [NewTrail(), NewTrail()])
  }

  /**
   * The ball's new direction after touching the given colliders. Centres are
   * compared doubled (left + right against twice an edge), which is exact.
   */
  function Bounce(b: Ball, colliders: seq<Box>): (r: Ball)
    ensures r.box == b.box && r.speed == b.speed
    ensures colliders == [] ==> r == b
    ensures |colliders| > 1 ==> r.dx == b.dx && r.dy == -b.dy
    ensures |colliders| == 1 && b.box.left + b.box.right > 2 * colliders[0].right ==>
              r.dx == 1 && r.dy == b.dy
    ensures |colliders| == 1 && b.box.left + b.box.right <= 2 * colliders[0].right
              && b.box.left + b.box.right < 2 * colliders[0].left ==>
              r.dx == -1 && r.dy == b.dy
    ensures |colliders| == 1 && 2 * colliders[0].left <= b.box.left + b.box.right <= 2 * colliders[0].right ==>
              r.dx == b.dx && r.dy == -b.dy
    ensures UnitDirection(b) ==> UnitDirection(r)
  {
    var centre2 := b.box.left + b.box.right;
    if |colliders| > 1 then b.(dy := -b.dy)
    else if |colliders| == 1 then
      if centre2 > 2 * colliders[0].right then b.(dx := 1)
      else if centre2 < 2 * colliders[0].left then b.(dx := -1)
      else b.(dy := -b.dy)
    else b
  }

  /**
   * When the ball is wedged between several colliders only the number of
   * colliders matters: where they are, and in which order, does not.
   */
  lemma WedgedBounceIgnoresGeometry(b: Ball, cs1: seq<Box>, cs2: seq<Box>)
    requires |cs1| > 1 && |cs2| > 1
    ensures Bounce(b, cs1) == Bounce(b, cs2)
    ensures Bounce(b, cs1).dy == -b.dy
  {
  }

  /**
   * The ball never reflects off the floor: below the top wall its vertical
   * direction survives an update, however far down it is. A corollary of
   * Advance's contract: only the top edge is ever tested vertically.
   */
  lemma NoFloorReflection(b: Ball, width: int)
    requires b.box.top > 0
    ensures Advance(b, width).0.dy == b.dy
  {
  }

  /**
   * A ball heading (1, -1) whose left edge is at the left wall turns to
   * (-1, -1); on the next update it touches the top wall but, still at the
   * left wall, also flips back horizontally, ending at (1, 1).
   */
  lemma LeftWallThenTopWall()
    ensures var b0 := Ball(Box(0, 5, 20, 25), 1, -1, Speed);
            var b1 := Advance(b0, 610).0;
            var b2 := Advance(b1, 610).0;
            b1.dx == -1 && b1.dy == -1 && b1.box == Box(-5, 0, 15, 20)
            && b2.dx == 1 && b2.dy == 1
  {
  }
}

=== FILE: bricks.dfy ===
/**
 * Bricks: 75 by 20 rectangles that take 3, 2 or 1 hits. Each hit takes one
 * off the count; the colour follows the remaining count, and the last hit
 * destroys the brick in a burst of 20 particles of its colour.
 */
module Bricks {
  import opened Geometry
  import opened Particles

  const BrickWidth: int := 75
  const BrickHeight: int := 20
  /** Burst particles released when a brick is destroyed. */
  const BurstSize: nat := 20

  /** The colour of a brick by its remaining hit count. */
  const Colors: map<int, string> := map[1 := "#4535AA", 2 := "#ED639E", 3 := "#8FE1A2"]

  datatype Brick = Brick(box: Box, hits: int, color: string)

  /** A brick still in play: hit count 1 to 3 and the colour of that count. */
  predicate Intact(b: Brick)
  {
    b.hits in Colors && b.color == Colors[b.hits]
  }

  predicate Destroyed(b: Brick)
  {
    b.hits == 0
  }

  /** A brick whose hit does not look up a missing colour. */
  predicate Hittable(b: Brick)
  {
    b.hits - 1 == 0 || b.hits - 1 in Colors
  }

  lemma IntactIsHittable(b: Brick)
    requires Intact(b)
    ensures Hittable(b) && 1 <= b.hits <= 3
  {
  }

  /** A brick whose left edge is at left, vertically centred on cy (horizontal centre left + 37.5). */
  function NewBrick(left: int, cy: int, hits: int): (b: Brick)
    requires hits in Colors
    ensures Intact(b) && b.hits == hits
    ensures b.box.left + b.box.right == 2 * left + BrickWidth
    ensures b.box.top + b.box.bottom == 2 * cy
    ensures b.box.Width() == BrickWidth && b.box.Height() == BrickHeight
  {
    Brick(Box(left, cy - BrickHeight / 2, left + BrickWidth, cy + BrickHeight / 2), hits, Colors[hits])
  }

  /**
   * One hit: the hit count drops by exactly one. At zero the brick is
   * destroyed and releases its burst, in its last colour; otherwise it takes
   * the colour of its new count and releases nothing.
   */
  function Hit(b: Brick): (r: (Brick, seq<Particle>))
    requires Hittable(b)
    ensures r.0.hits == b.hits - 1 && r.0.box == b.box
    ensures Destroyed(r.0) ==> r.0.color == b.color
    ensures Destroyed(r.0) ==> |r.1| == BurstSize
    ensures Destroyed(r.0) ==> forall i :: 0 <= i < |r.1| ==> r.1[i] == NewBurst(b.color)
    ensures !Destroyed(r.0) ==> Intact(r.0) && r.1 == []
  {
    var hits := b.hits - 1;
    if hits == 0 then
      (b.(hits := hits), seq(BurstSize, _ => NewBurst(b.color)))
    else
      (b.(hits := hits, color := Colors[hits]), [])
  }

  /** The brick after n hits. */
  function HitTimes(b: Brick, n: nat): (r: Brick)
    requires Intact(b) && n <= b.hits
    ensures r.hits == b.hits - n && r.box == b.box
    ensures n < b.hits ==> Intact(r)
  {
    if n == 0 then b
    else
      var prev := HitTimes(b, n - 1);
      IntactIsHittable(prev);
      Hit(prev).0
  }

  /** A brick with hit count h survives h - 1 hits and is destroyed by the h-th. */
  lemma DestroyedByItsHitCount(b: Brick)
    requires Intact(b)
    ensures forall n: nat :: n < b.hits ==> !Destroyed(HitTimes(b, n))
    ensures Destroyed(HitTimes(b, b.hits))
  {
  }

  /** The colour after a hit: a 3-hit brick turns "#ED639E", a 2-hit brick "#4535AA". */
  lemma HitRecolours(b: Brick)
    requires Intact(b)
    ensures b.hits == 3 ==> Hit(b).0.color == "#ED639E"
    ensures b.hits == 2 ==> Hit(b).0.color == "#4535AA"
    ensures b.hits == 1 ==> Destroyed(Hit(b).0) && |Hit(b).1| == 20
  {
  }
}

=== FILE: game.dfy ===
/**
 * The game: a state machine over a paddle, one ball, the brick registry,
 * the particle list and the life counter. Every input becomes one event:
 * an arrow key, the space key, a timer tick of the game loop, or the timer
 * that sets up the next round after a lost ball.
 */
module BrickGame {
  import opened Geometry
  import opened Particles
  import opened Balls
  import opened Paddles
  import opened Bricks
  import opened Grid

  const Width: int := 610
  const Height: int := 400
  const StartingLives: int := 3
  const PaddleY: int := 326
  const BallY: int := 310
  /** Canvas item handles, numbered from 1 in creation order: the paddle, then the bricks. */
  const PaddleHandle: int := 1
  const FirstBrickHandle: int := 2

  datatype Phase = AwaitingLaunch | Running | RoundOver | Won | Lost

  /** A registered game object the ball can touch. */
  datatype Obj = PaddleObj | BrickObj(handle: int)

  /**
   * Inputs to the game. The space key and a tick both run the game loop,
   * which starts by asking the canvas which items overlap the ball: that
   * answer (canvas handles, each at most once) travels with the event.
   */
  datatype Event =
    | LeftKey
    | RightKey
    | SpaceKey(overlap: seq<int>)
    | Tick(overlap: seq<int>)
    | SetupTimer

  /** Pairwise distinct elements, as the canvas returns each overlapping item once. */
  predicate Distinct<T(==)>(s: seq<T>)
  {
    forall i, j :: 0 <= i < j < |s| ==> s[i] != s[j]
  }

  predicate WellFormed(e: Event)
  {
    (e.SpaceKey? || e.Tick?) ==> Distinct(e.overlap)
  }

  predicate AllWellFormed(es: seq<Event>)
  {
    forall i :: 0 <= i < |es| ==> WellFormed(es[i])
  }

  datatype Game = Game(
    lives: int,
    paddle: Paddle,
    ball: Ball,
    bricks: map<int, Brick>,       // live bricks by canvas handle
    particles: seq<Particle>,
    phase: Phase)

  /** The ball rests on the paddle, horizontally centred on it, at y = 310. */
  predicate BallOnPaddle(g: Game)
  {
    && g.ball.box.left + g.ball.box.right == g.paddle.box.left + g.paddle.box.right
    && g.ball.box.top == BallY - Radius
    && g.ball.box.bottom == BallY + Radius
  }

  /** What every reachable game state satisfies. */
  predicate Valid(g: Game)
  {
    && UnitDirection(g.ball)
    && g.ball.speed == Speed
    && g.ball.box.Width() == 2 * Radius && g.ball.box.Height() == 2 * Radius
    && InBounds(g.paddle, Width)
    && g.paddle.box.Width() == PaddleWidth
    && g.paddle.box.top == PaddleY - PaddleHeight / 2
    && g.paddle.box.bottom == PaddleY + PaddleHeight / 2
    && (forall h :: h in g.bricks ==> h != PaddleHandle && Intact(g.bricks[h]))
    && (forall i :: 0 <= i < |g.particles| ==> g.particles[i].life > 0)
    && (g.paddle.holdsBall <==> g.phase == AwaitingLaunch)
    && (g.phase == AwaitingLaunch ==> BallOnPaddle(g))
    && (g.phase == Won <==> |g.bricks| == 0)
    && (g.phase == Lost <==> g.lives < 0)
    && -1 <= g.lives <= StartingLives
  }

  // ---------------------------------------------------------------- setup

  /** The brick registry: the k-th brick of s gets handle first + k. */
  function BrickMap(s: seq<Brick>, first: int): (m: map<int, Brick>)
    ensures forall h :: h in m <==> first <= h < first + |s|
    ensures forall h :: h in m ==> m[h] == s[h - first]
    ensures |m| == |s|
  {
    if s == [] then map[]
    else
      var m := BrickMap(s[1..], first + 1);
      assert first !in m;
      m[first := s[0]]
  }

  /**
   * Set up a round: a new ball centred on the paddle at y = 310, heading
   * (1, -1), carried by the paddle, waiting for the space key.
   */
  function SetupRound(lives: int, paddle: Paddle, bricks: map<int, Brick>, particles: seq<Particle>): (g: Game)
    ensures g.phase == AwaitingLaunch && g.paddle.holdsBall && g.paddle.box == paddle.box
    ensures g.lives == lives && g.bricks == bricks && g.particles == particles
    ensures g.ball.dx == 1 && g.ball.dy == -1 && g.ball.speed == Speed
    ensures g.ball.box.Width() == 2 * Radius && g.ball.box.Height() == 2 * Radius
    ensures paddle.box.Width() == PaddleWidth ==> BallOnPaddle(g)
  {
    var x := (paddle.box.left + paddle.box.right) / 2;
    Game(lives, SetBall(paddle), NewBall(x, BallY), bricks, particles, AwaitingLaunch)
  }

  /** The brick registry as the window opens. */
  function InitialBricks(width: int): map<int, Brick>
  {
    BrickMap(InitialLayout(width), FirstBrickHandle)
  }

  /**
   * The initial registry of the 610-wide playfield: the 24 handles 2 to 25,
   * handle h holding brick h - 2 of the layout (see Grid.InitialLayoutAt),
   * every one of them intact. The width is a parameter fixed to Width by the
   * precondition rather than the constant itself, so that the verifier does
   * not unfold BrickMap, Layout and Columns on constant arguments.
   */
  lemma InitialRegistry(width: int)
    requires width == Width
    ensures |InitialBricks(width)| == 24
    ensures forall h :: h in InitialBricks(width) <==> FirstBrickHandle <= h < FirstBrickHandle + 24
    ensures forall h :: h in InitialBricks(width) ==>
              InitialBricks(width)[h] == InitialLayout(width)[h - FirstBrickHandle]
    ensures forall h :: h in InitialBricks(width) ==> h != PaddleHandle && Intact(InitialBricks(width)[h])
  {
    InitialLayoutAt(width, 0);
  }

  /** The game as the window opens: 3 lives, 24 bricks, the ball on the paddle. */
  function Init(): (g: Game)
    ensures Valid(g)
    ensures g.lives == StartingLives && g.phase == AwaitingLaunch && g.particles == []
    ensures g.bricks == InitialBricks(Width) && |g.bricks| == 24
    ensures g.paddle.box == Box(265, 321, 345, 331) && g.ball.box == Box(295, 300, 315, 320)
  {
    InitialRegistry(Width);
    SetupRound(StartingLives, NewPaddle(Width / 2, PaddleY), InitialBricks(Width), [])
  }

  // ---------------------------------------------------------- paddle keys

  /** An arrow key: move the paddle, and the ball with it while carried. */
  function MovePaddle(g: Game, offset: int): (r: Game)
    requires Valid(g)
    ensures Valid(r)
    ensures r.lives == g.lives && r.bricks == g.bricks && r.particles == g.particles && r.phase == g.phase
    ensures MoveAllowed(g.paddle, offset, Width) ==> r.paddle.box == Translate(g.paddle.box, offset, 0)
    ensures !MoveAllowed(g.paddle, offset, Width) ==> r == g
    ensures g.phase != AwaitingLaunch ==> r.ball == g.ball
    ensures g.phase == AwaitingLaunch && MoveAllowed(g.paddle, offset, Width) ==>
              r.ball == g.ball.(box := Translate(g.ball.box, offset, 0))
  {
    var (p, b) := Move(g.paddle, g.ball, offset, Width);
    g.(paddle := p, ball := b)
  }

  // ------------------------------------------------------------ collisions

  /**
   * Keep the overlapping handles that belong to a registered game object,
   * in order; the ball itself, texts and particles are not registered.
   */
  function Registered(overlap: seq<int>, bricks: map<int, Brick>): (objs: seq<Obj>)
    requires PaddleHandle !in bricks
    ensures forall i :: 0 <= i < |objs| && objs[i].BrickObj? ==> objs[i].handle in bricks
    ensures forall h :: h in bricks ==> (BrickObj(h) in objs <==> h in overlap)
    ensures PaddleObj in objs <==> PaddleHandle in overlap
    ensures Distinct(overlap) ==> Distinct(objs)
  {
    if overlap == [] then []
    else
      var h := overlap[0];
      var rest := Registered(overlap[1..], bricks);
      assert forall x :: x in overlap <==> x == h || x in overlap[1..];
      if h == PaddleHandle then [PaddleObj] + rest
      else if h in bricks then [BrickObj(h)] + rest
      else rest
  }

  /** Every brick handle in objs is live and can take a hit. */
  predicate HitTargets(bricks: map<int, Brick>, objs: seq<Obj>)
  {
    forall i :: 0 <= i < |objs| && objs[i].BrickObj? ==>
      objs[i].handle in bricks && Hittable(bricks[objs[i].handle])
  }

  lemma IntactTargets(bricks: map<int, Brick>, objs: seq<Obj>)
    requires forall h :: h in bricks ==> Intact(bricks[h])
    requires forall i :: 0 <= i < |objs| && objs[i].BrickObj? ==> objs[i].handle in bricks
    ensures HitTargets(bricks, objs)
  {
  }

  /** The bounds of a touched object. */
  function ObjBox(paddle: Paddle, bricks: map<int, Brick>, o: Obj): Box
    requires o.BrickObj? ==> o.handle in bricks
  {
    if o.PaddleObj? then paddle.box else bricks[o.handle].box
  }

  /** The bounds of the touched objects, in order: the paddle's or the brick's own. */
  function Boxes(paddle: Paddle, bricks: map<int, Brick>, objs: seq<Obj>): (r: seq<Box>)
    requires forall i :: 0 <= i < |objs| && objs[i].BrickObj? ==> objs[i].handle in bricks
    ensures |r| == |objs|
    ensures forall i :: 0 <= i < |objs| && objs[i].PaddleObj? ==> r[i] == paddle.box
    ensures forall i :: 0 <= i < |objs| && objs[i].BrickObj? ==> r[i] == bricks[objs[i].handle].box
  {
    seq(|objs|, i requires 0 <= i < |objs| => ObjBox(paddle, bricks, objs[i]))
  }

  /** Hit one touched object: only a brick reacts. */
  function HitOne(bricks: map<int, Brick>, o: Obj, particles: seq<Particle>): (r: (map<int, Brick>, seq<Particle>))
    requires o.BrickObj? ==> o.handle in bricks && Hittable(bricks[o.handle])
    ensures forall h :: h in bricks && o != BrickObj(h) ==> h in r.0 && r.0[h] == bricks[h]
    ensures r.0.Keys <= bricks.Keys
    ensures o.PaddleObj? ==> r == (bricks, particles)
    ensures o.BrickObj? ==> var (b, bursts) := Hit(bricks[o.handle]);
              && (o.handle in r.0 <==> !Destroyed(b))
              && (o.handle in r.0 ==> r.0[o.handle] == b)
              && r.1 == particles + (if Destroyed(b) then bursts else [])
  {
    match o
    case PaddleObj => (bricks, particles)
    case BrickObj(h) =>
      var (b, bursts) := Hit(bricks[h]);
      if Destroyed(b) then (bricks - {h}, particles + bursts) else (bricks[h := b], particles)
  }

  lemma HitOneCount(bricks: map<int, Brick>, o: Obj, particles: seq<Particle>)
    requires o.BrickObj? ==> o.handle in bricks && Hittable(bricks[o.handle])
    ensures var r := HitOne(bricks, o, particles);
            |r.1| == |particles| + BurstSize * |bricks.Keys - r.0.Keys|
  {
    var r := HitOne(bricks, o, particles);
    if o.BrickObj? && Destroyed(Hit(bricks[o.handle]).0) {
      assert bricks.Keys - r.0.Keys == {o.handle};
    } else {
      assert bricks.Keys - r.0.Keys == {};
    }
  }

  /** Removals along a chain of shrinking key sets add up. */
  lemma DiffChain<T>(a: set<T>, b: set<T>, c: set<T>)
    requires c <= b <= a
    ensures |a - c| == |a - b| + |b - c|
  {
    assert a - c == (a - b) + (b - c);
    assert (a - b) * (b - c) == {};
  }

  lemma DistinctTail<T>(s: seq<T>)
    requires Distinct(s) && s != []
    ensures Distinct(s[1..]) && s[0] !in s[1..]
  {
    assert forall j :: 1 <= j < |s| ==> s[1..][j - 1] == s[j];
  }

  /** After the first object is hit, the remaining ones are still valid targets. */
  lemma TargetsAfterFirst(bricks: map<int, Brick>, objs: seq<Obj>, particles: seq<Particle>)
    requires Distinct(objs) && HitTargets(bricks, objs) && objs != []
    ensures HitTargets(HitOne(bricks, objs[0], particles).0, objs[1..])
  {
    DistinctTail(objs);
    var rest := objs[1..];
    forall i | 0 <= i < |rest| && rest[i].BrickObj?
      ensures rest[i].handle in HitOne(bricks, objs[0], particles).0
    {
      assert rest[i] == objs[i + 1];
    }
  }

  /**
   * Hit every touched object once, in order; what that does to the bricks
   * and the particles is stated by HitAllBricks and HitAllParticles.
   */
  function HitAll(bricks: map<int, Brick>, objs: seq<Obj>, particles: seq<Particle>): (r: (map<int, Brick>, seq<Particle>))
    requires Distinct(objs) && HitTargets(bricks, objs)
    decreases |objs|
  {
    if objs == [] then (bricks, particles)
    else
      var (bricks', particles') := HitOne(bricks, objs[0], particles);
      DistinctTail(objs);
      TargetsAfterFirst(bricks, objs, particles);
      HitAll(bricks', objs[1..], particles')
  }

  /**
   * Every touched brick takes exactly one hit and leaves the registry iff it
   * was its last; untouched bricks are unchanged; nothing joins the registry.
   */
  lemma {:induction false} HitAllBricks(bricks: map<int, Brick>, objs: seq<Obj>, particles: seq<Particle>)
    requires Distinct(objs) && HitTargets(bricks, objs)
    ensures var r := HitAll(bricks, objs, particles).0;
            && r.Keys <= bricks.Keys
            && (forall h :: h in bricks && BrickObj(h) !in objs ==> h in r && r[h] == bricks[h])
            && (forall h :: h in bricks && BrickObj(h) in objs ==>
                  Hittable(bricks[h]) && (h in r <==> !Destroyed(Hit(bricks[h]).0)))
            && (forall h :: h in r && BrickObj(h) in objs ==> r[h] == Hit(bricks[h]).0)
    decreases |objs|
  {
    if objs != [] {
      var o, rest := objs[0], objs[1..];
      assert forall x :: x in objs <==> x == o || x in rest;
      DistinctTail(objs);
      TargetsAfterFirst(bricks, objs, particles);
      var (bricks', particles') := HitOne(bricks, o, particles);
      HitAllBricks(bricks', rest, particles');
    }
  }

  /** The particle list only grows at its end, and only by fresh burst particles. */
  lemma {:induction false} HitAllParticles(bricks: map<int, Brick>, objs: seq<Obj>, particles: seq<Particle>)
    requires Distinct(objs) && HitTargets(bricks, objs)
    ensures var ps := HitAll(bricks, objs, particles).1;
            && |particles| <= |ps| && ps[..|particles|] == particles
            && (forall i :: |particles| <= i < |ps| ==> ps[i].Burst? && ps[i].life == BurstLifetime)
    decreases |objs|
  {
    if objs != [] {
      var o, rest := objs[0], objs[1..];
      DistinctTail(objs);
      TargetsAfterFirst(bricks, objs, particles);
      var (bricks', particles') := HitOne(bricks, o, particles);
      HitAllParticles(bricks', rest, particles');
      var ps := HitAll(bricks', rest, particles').1;
      assert ps == HitAll(bricks, objs, particles).1;
      assert particles'[..|particles|] == particles;
      assert ps[..|particles|] == ps[..|particles'|][..|particles|];
      forall i | |particles| <= i < |particles'|
        ensures ps[i].Burst? && ps[i].life == BurstLifetime
      {
        assert ps[i] == ps[..|particles'|][i];
      }
    }
  }

  /** One burst of BurstSize particles per brick that left the registry. */
  lemma {:induction false} HitAllBurstCount(bricks: map<int, Brick>, objs: seq<Obj>, particles: seq<Particle>)
    requires Distinct(objs) && HitTargets(bricks, objs)
    ensures var r := HitAll(bricks, objs, particles);
            r.0.Keys <= bricks.Keys && |r.1| == |particles| + BurstSize * |bricks.Keys - r.0.Keys|
    decreases |objs|
  {
    if objs != [] {
      var o, rest := objs[0], objs[1..];
      DistinctTail(objs);
      TargetsAfterFirst(bricks, objs, particles);
      var (bricks', particles') := HitOne(bricks, o, particles);
      HitOneCount(bricks, o, particles);
      HitAllBurstCount(bricks', rest, particles');
      var r := HitAll(bricks', rest, particles');
      assert r == HitAll(bricks, objs, particles);
      DiffChain(bricks.Keys, bricks'.Keys, r.0.Keys);
    }
  }

  /**
   * Resolve the collisions of one tick: the ball bounces off what it
   * touches and every touched brick takes one hit; the paddle, the lives
   * and the phase do not change.
   */
  function CheckCollisions(g: Game, overlap: seq<int>): (r: Game)
    requires Valid(g) && Distinct(overlap)
    ensures r.paddle == g.paddle && r.lives == g.lives && r.phase == g.phase
    ensures r.ball.box == g.ball.box && r.ball.speed == g.ball.speed && UnitDirection(r.ball)
    ensures r.bricks.Keys <= g.bricks.Keys
    ensures forall h :: h in r.bricks ==> Intact(r.bricks[h])
    ensures forall i :: 0 <= i < |r.particles| ==> r.particles[i].life > 0
  {
    var objs := Registered(overlap, g.bricks);
    IntactTargets(g.bricks, objs);
    var ball := Bounce(g.ball, Boxes(g.paddle, g.bricks, objs));
    var (bricks, particles) := HitAll(g.bricks, objs, g.particles);
    HitAllBricks(g.bricks, objs, g.particles);
    HitAllParticles(g.bricks, objs, g.particles);
    assert forall h :: h in bricks ==> Intact(bricks[h]) by {
      forall h | h in bricks
        ensures Intact(bricks[h])
      {
        if BrickObj(h) in objs {
          assert bricks[h] == Hit(g.bricks[h]).0;
        }
      }
    }
    assert forall i :: 0 <= i < |particles| ==> particles[i].life > 0 by {
      forall i | 0 <= i < |particles|
        ensures particles[i].life > 0
      {
        if i < |g.particles| {
          assert particles[i] == particles[..|g.particles|][i];
        }
      }
    }
    g.(ball := ball, bricks := bricks, particles := particles)
  }

  /**
   * Each live brick whose handle is in the overlap takes exactly one hit,
   * leaving the registry iff that was its last; every other brick is
   * unchanged.
   */
  lemma CollisionHits(g: Game, overlap: seq<int>)
    requires Valid(g) && Distinct(overlap)
    ensures var r := CheckCollisions(g, overlap);
            && (forall h :: h in g.bricks && h !in overlap ==> h in r.bricks && r.bricks[h] == g.bricks[h])
            && (forall h :: h in g.bricks && h in overlap ==>
                  && (h in r.bricks <==> g.bricks[h].hits > 1)
                  && (h in r.bricks ==> r.bricks[h] == Hit(g.bricks[h]).0)
                  && (h in r.bricks ==> r.bricks[h].hits == g.bricks[h].hits - 1 && r.bricks[h].box == g.bricks[h].box))
  {
    var objs := Registered(overlap, g.bricks);
    IntactTargets(g.bricks, objs);
    HitAllBricks(g.bricks, objs, g.particles);
  }

  /**
   * The ball's bounce in a tick, over the registered objects it overlaps:
   * several objects flip its vertical direction only; a single object
   * applies the three-zone rule against that object's bounds (the paddle's,
   * or the brick's as it was before the hit); none leaves the ball as it was.
   */
  lemma CollisionBounce(g: Game, overlap: seq<int>)
    requires Valid(g) && Distinct(overlap)
    ensures var objs := Registered(overlap, g.bricks);
            var b := g.ball;
            var r := CheckCollisions(g, overlap).ball;
            && r.box == b.box && r.speed == b.speed
            && (|objs| == 0 ==> r == b)
            && (|objs| > 1 ==> r.dx == b.dx && r.dy == -b.dy)
            && (|objs| == 1 ==>
                  var c := ObjBox(g.paddle, g.bricks, objs[0]);
                  var centre2 := b.box.left + b.box.right;
                  && (centre2 > 2 * c.right ==> r.dx == 1 && r.dy == b.dy)
                  && (centre2 <= 2 * c.right && centre2 < 2 * c.left ==> r.dx == -1 && r.dy == b.dy)
                  && (2 * c.left <= centre2 <= 2 * c.right ==> r.dx == b.dx && r.dy == -b.dy))
  {
    var objs := Registered(overlap, g.bricks);
    var cs := Boxes(g.paddle, g.bricks, objs);
    if |objs| == 1 {
      assert cs[0] == ObjBox(g.paddle, g.bricks, objs[0]);
    }
  }

  /**
   * What collisions do to the particle list: the existing particles stay,
   * in order, and one burst of BurstSize fresh burst particles is appended
   * per brick that left the registry.
   */
  lemma CollisionParticles(g: Game, overlap: seq<int>)
    requires Valid(g) && Distinct(overlap)
    ensures var r := CheckCollisions(g, overlap);
            && |g.particles| <= |r.particles|
            && r.particles[..|g.particles|] == g.particles
            && r.bricks.Keys <= g.bricks.Keys
            && |r.particles| == |g.particles| + BurstSize * |g.bricks.Keys - r.bricks.Keys|
            && (forall i :: |g.particles| <= i < |r.particles| ==>
                  r.particles[i].Burst? && r.particles[i].life == BurstLifetime)
  {
    var objs := Registered(overlap, g.bricks);
    IntactTargets(g.bricks, objs);
    HitAllParticles(g.bricks, objs, g.particles);
    HitAllBurstCount(g.bricks, objs, g.particles);
  }

  // ------------------------------------------------------------- game loop

  /**
   * One run of the game loop: resolve collisions, then win if no brick is
   * left; otherwise lose a life if the ball reached the floor (and the game
   * if no life was left); otherwise advance the ball and the particles.
   */
  function GameLoop(g: Game, overlap: seq<int>): (r: Game)
    requires Valid(g) && g.phase == Running && Distinct(overlap)
    ensures Valid(r)
    ensures var c := CheckCollisions(g, overlap);
            && (|c.bricks| == 0 ==> r == c.(phase := Won))
            && (|c.bricks| > 0 && c.ball.box.bottom >= Height ==>
                  && r.lives == g.lives - 1
                  && (r.phase == Lost <==> g.lives == 0)
                  && (r.phase == RoundOver <==> g.lives > 0)
                  && r.ball == c.ball && r.paddle == c.paddle && r.bricks == c.bricks
                  && r.particles == c.particles)
            && (|c.bricks| > 0 && c.ball.box.bottom < Height ==>
                  && r.phase == Running && r.lives == g.lives
                  && r.paddle == c.paddle && r.bricks == c.bricks
                  && r.ball == Advance(c.ball, Width).0
                  && r.particles == Survivors(c.particles + Advance(c.ball, Width).1))
  {
    var c := CheckCollisions(g, overlap);
    if |c.bricks| == 0 then
      c.(phase := Won)
    else if c.ball.box.bottom >= Height then
      var lives := c.lives - 1;
      c.(lives := lives, phase := if lives < 0 then Lost else RoundOver)
    else
      var (ball, trails) := Advance(c.ball, Width);
      c.(ball := ball, particles := Survivors(c.particles + trails))
  }

  /** The space key: detach the ball from the paddle and start the loop. */
  function Launch(g: Game): (r: Game)
    requires Valid(g) && g.phase == AwaitingLaunch
    ensures Valid(r) && r.phase == Running && !r.paddle.holdsBall
    ensures r.ball == g.ball && r.lives == g.lives && r.bricks == g.bricks
    ensures r.paddle.box == g.paddle.box && r.particles == g.particles
  {
    g.(paddle := ReleaseBall(g.paddle), phase := Running)
  }

  /**
   * One event. Arrow keys stay bound in every phase; the space key is bound
   * only while waiting for launch; ticks run only while the loop is
   * scheduled; the setup timer fires only after a lost ball.
   */
  function Step(g: Game, e: Event): (r: Game)
    requires Valid(g) && WellFormed(e)
    ensures Valid(r)
    ensures r.lives == g.lives || r.lives == g.lives - 1
    ensures g.phase == Won || g.phase == Lost ==> r.phase == g.phase && r.lives == g.lives
  {
    match e
    case LeftKey => MovePaddle(g, -MoveStep)
    case RightKey => MovePaddle(g, MoveStep)
    case SpaceKey(overlap) => if g.phase == AwaitingLaunch then GameLoop(Launch(g), overlap) else g
    case Tick(overlap) => if g.phase == Running then GameLoop(g, overlap) else g
    case SetupTimer =>
      if g.phase == RoundOver then SetupRound(g.lives, g.paddle, g.bricks, g.particles) else g
  }

  function Run(g: Game, es: seq<Event>): (r: Game)
    requires Valid(g) && AllWellFormed(es)
    ensures Valid(r)
    decreases |es|
  {
    if es == [] then g else Run(Step(g, es[0]), es[1..])
  }

  // ----------------------------------------------------------- properties

  /** The event runs the game loop in the current phase. */
  predicate RunsLoop(g: Game, e: Event)
  {
    (e.SpaceKey? && g.phase == AwaitingLaunch) || (e.Tick? && g.phase == Running)
  }

  /** The event runs the loop, and after collisions bricks remain and the ball is at the floor. */
  predicate IsDrop(g: Game, e: Event)
    requires Valid(g) && WellFormed(e)
  {
    && RunsLoop(g, e)
    && var start := if e.SpaceKey? then Launch(g) else g;
       var c := CheckCollisions(start, e.overlap);
       |c.bricks| > 0 && c.ball.box.bottom >= Height
  }

  /** Ball drops along a run of events. */
  function CountDrops(g: Game, es: seq<Event>): nat
    requires Valid(g) && AllWellFormed(es)
    decreases |es|
  {
    if es == [] then 0
    else (if IsDrop(g, es[0]) then 1 else 0) + CountDrops(Step(g, es[0]), es[1..])
  }

  /** A drop costs exactly one life and ends the game iff none was left; nothing else costs one. */
  lemma DropCostsOneLife(g: Game, e: Event)
    requires Valid(g) && WellFormed(e)
    ensures IsDrop(g, e) ==> Step(g, e).lives == g.lives - 1
    ensures IsDrop(g, e) ==> (Step(g, e).phase == Lost <==> g.lives == 0)
    ensures !IsDrop(g, e) ==> Step(g, e).lives == g.lives
  {
  }

  /** Along any run the lives lost are the drops, and the game is lost iff lives went negative. */
  lemma {:induction false} LivesAccounting(g: Game, es: seq<Event>)
    requires Valid(g) && AllWellFormed(es)
    ensures Run(g, es).lives == g.lives - CountDrops(g, es)
    ensures Run(g, es).phase == Lost <==> CountDrops(g, es) > g.lives
    ensures CountDrops(g, es) <= g.lives + 1
    decreases |es|
  {
    if es != [] {
      DropCostsOneLife(g, es[0]);
      LivesAccounting(Step(g, es[0]), es[1..]);
    }
  }

  /** From the opening state the game is lost exactly when the fourth ball is dropped. */
  lemma FourthDropLoses(es: seq<Event>)
    requires AllWellFormed(es)
    ensures CountDrops(Init(), es) <= 4
    ensures Run(Init(), es).phase == Lost <==> CountDrops(Init(), es) == 4
  {
    LivesAccounting(Init(), es);
  }

  /** Once launched the ball is no longer carried: arrow keys move the paddle alone. */
  lemma LaunchReleasesBall(g: Game, overlap: seq<int>, e: Event)
    requires Valid(g) && g.phase == AwaitingLaunch && Distinct(overlap)
    requires e == LeftKey || e == RightKey
    ensures var r := Step(g, SpaceKey(overlap));
            !r.paddle.holdsBall && Step(r, e).ball == r.ball
  {
  }
}

=== FILE: geometry.dfy ===
/**
 * Axis-aligned bounding boxes in canvas coordinates, as the canvas reports
 * them for every shape: (left, top, right, bottom), x growing to the right
 * and y growing downwards.
 */
module Geometry {

  datatype Box = Box(left: int, top: int, right: int, bottom: int)
  {
    function Width(): int { right - left }
    function Height(): int { bottom - top }
  }

  /** The box of a shape drawn centred on (cx, cy) with the given half extents. */
  function Centred(cx: int, cy: int, halfWidth: int, halfHeight: int): (b: Box)
    ensures b.left + b.right == 2 * cx && b.top + b.bottom == 2 * cy
    ensures b.Width() == 2 * halfWidth && b.Height() == 2 * halfHeight
  {
    Box(cx - halfWidth, cy - halfHeight, cx + halfWidth, cy + halfHeight)
  }

  /** The box after the canvas moves a shape by (dx, dy): same extent, shifted corner. */
  function Translate(b: Box, dx: int, dy: int): (r: Box)
    ensures r.Width() == b.Width() && r.Height() == b.Height()
    ensures r.left == b.left + dx && r.top == b.top + dy
  {
    Box(b.left + dx, b.top + dy, b.right + dx, b.bottom + dy)
  }
}

=== FILE: grid.dfy ===
/**
 * The initial brick grid: one column for every left edge x in
 * range(5, width - 5, 75), each column holding a 3-hit brick centred at
 * y = 50, a 2-hit brick at y = 70 and a 1-hit brick at y = 90, all centred
 * horizontally at x + 37.5.
 */
module Grid {
  import opened Bricks

  const FirstColumn: int := 5
  const ColumnStep: int := 75

  /** The values of range(start, stop, 75), with stop excluded. */
  function Columns(start: int, stop: int): (r: seq<int>)
    ensures |r| == if start < stop then (stop - start + 74) / 75 else 0
    ensures forall k :: 0 <= k < |r| ==> r[k] == start + 75 * k
    decreases stop - start
  {
    if start >= stop then [] else [start] + Columns(start + ColumnStep, stop)
  }

  /** The brick of the given row (0 top to 2 bottom) of the column whose left edge is left. */
  function RowBrick(left: int, row: int): (b: Brick)
    requires 0 <= row < 3
    ensures Intact(b)
  {
    NewBrick(left, 50 + 20 * row, 3 - row)
  }

  /** The three bricks of a column, top to bottom, in creation order. */
  function ColumnBricks(left: int): seq<Brick>
  {
    [RowBrick(left, 0), RowBrick(left, 1), RowBrick(left, 2)]
  }

  /** The bricks in creation order, column by column: brick k sits in column k / 3 and row k % 3. */
  function Layout(cols: seq<int>): (r: seq<Brick>)
    ensures |r| == 3 * |cols|
    ensures forall k :: 0 <= k < |r| ==> r[k] == RowBrick(cols[k / 3], k % 3)
  {
    if cols == [] then []
    else
      var rest := Layout(cols[1..]);
      var r := ColumnBricks(cols[0]) + rest;
      forall k | 3 <= k < |r|
        ensures r[k] == RowBrick(cols[k / 3], k % 3)
      {
        var j := k - 3;
        assert r[k] == rest[j];
        assert j / 3 == k / 3 - 1 && j % 3 == k % 3;
      }
      r
  }

  /** The bricks a playfield of the given width starts with, in creation order. */
  function InitialLayout(width: int): seq<Brick>
  {
    Layout(Columns(FirstColumn, width - 5))
  }

  /**
   * Brick k of a 610-wide playfield: column k / 3, row k % 3. The width is a
   * parameter fixed by the precondition rather than the literal 610, so that
   * the verifier does not unfold Columns and Layout on constant arguments.
   */
  lemma InitialLayoutAt(width: int, k: int)
    requires width == 610 && 0 <= k < 24
    ensures |InitialLayout(width)| == 24
    ensures InitialLayout(width)[k] == NewBrick(5 + 75 * (k / 3), 50 + 20 * (k % 3), 3 - k % 3)
    ensures Intact(InitialLayout(width)[k])
  {
    var cols := Columns(FirstColumn, width - 5);
    assert |cols| == 8;
    assert cols[k / 3] == 5 + 75 * (k / 3);
  }

  /** A 610-wide playfield has the eight columns 5, 80, ..., 530 and 24 bricks. */
  lemma EightColumns()
    ensures Columns(FirstColumn, 610 - 5) == [5, 80, 155, 230, 305, 380, 455, 530]
    ensures |InitialLayout(610)| == 24
  {
    var cs := Columns(FirstColumn, 610 - 5);
    assert |cs| == 8;
  }
}

=== FILE: paddles.dfy ===
/**
 * The paddle: an 80 by 10 rectangle moved sideways by the arrow keys in
 * steps of 10, carrying the ball along until the ball is launched.
 */
module Paddles {
  import opened Geometry
  import opened Balls

  const PaddleWidth: int := 80
  const PaddleHeight: int := 10
  /** The offset one arrow key press asks for. */
  const MoveStep: int := 10

  /** The paddle's bounds and whether it currently carries the ball. */
  datatype Paddle = Paddle(box: Box, holdsBall: bool)

  /** A new paddle centred on (x, y), carrying no ball. */
  function NewPaddle(x: int, y: int): (p: Paddle)
    ensures !p.holdsBall
    ensures p.box.left + p.box.right == 2 * x && p.box.top + p.box.bottom == 2 * y
    ensures p.box.Width() == PaddleWidth && p.box.Height() == PaddleHeight
  {
    Paddle(Centred(x, y, PaddleWidth / 2, PaddleHeight / 2), false)
  }

  predicate InBounds(p: Paddle, width: int)
  {
    0 <= p.box.left && p.box.right <= width
  }

  /** Whether a move by offset keeps the paddle inside [0, width]. */
  predicate MoveAllowed(p: Paddle, offset: int, width: int)
  {
    p.box.left + offset >= 0 && p.box.right + offset <= width
  }

  /**
   * Move the paddle horizontally by offset, all or nothing: the move is
   * rejected outright if it would leave [0, width]. A carried ball moves by
   * the same offset.
   */
  function Move(p: Paddle, ball: Ball, offset: int, width: int): (r: (Paddle, Ball))
    ensures MoveAllowed(p, offset, width) ==>
              r.0 == p.(box := Translate(p.box, offset, 0))
    ensures MoveAllowed(p, offset, width) && p.holdsBall ==>
              r.1 == ball.(box := Translate(ball.box, offset, 0))
    ensures !MoveAllowed(p, offset, width) ==> r == (p, ball)
    ensures !p.holdsBall ==> r.1 == ball
    ensures r.0.box.top == p.box.top && r.0.box.bottom == p.box.bottom
    ensures r.1.box.top == ball.box.top && r.1.box.bottom == ball.box.bottom
    ensures InBounds(p, width) ==> InBounds(r.0, width)
  {
    if MoveAllowed(p, offset, width) then
      var ball' := if p.holdsBall then ball.(box := Translate(ball.box, offset, 0)) else ball;
      (p.(box := Translate(p.box, offset, 0)), ball')
    else
      (p, ball)
  }

  /** A move that was accepted is undone by the opposite move. */
  lemma MoveUndo(p: Paddle, ball: Ball, offset: int, width: int)
    requires InBounds(p, width)
    requires MoveAllowed(p, offset, width)
    ensures var (p', ball') := Move(p, ball, offset, width);
            Move(p', ball', -offset, width) == (p, ball)
  {
  }

  /** A paddle already at the right edge does not move right: no partial clamp. */
  lemma RightEdgeRejectsMove(p: Paddle, ball: Ball, width: int)
    requires p.box.right + MoveStep > width
    ensures Move(p, ball, MoveStep, width) == (p, ball)
  {
  }

  /** Attach the ball, as at round setup. */
  function SetBall(p: Paddle): (r: Paddle)
    ensures r.holdsBall && r.box == p.box
  {
    p.(holdsBall := true)
  }

  /** Detach the ball, as at launch. */
  function ReleaseBall(p: Paddle): (r: Paddle)
    ensures !r.holdsBall && r.box == p.box
  {
    p.(holdsBall := false)
  }
}

=== FILE: particles.dfy ===
/**
 * Particle lifetimes. A particle is modelled by its remaining lifetime only
 * (its drawn position, size and random velocity are cosmetic). Lifetimes are
 * counted in half ticks so that the burst particle's decrement of 0.5 per
 * update is an integer: a trail particle starts at 10 (20 half ticks) and
 * loses 1 per update, a burst particle starts at 20 (40 half ticks) and loses
 * 0.5 per update.
 */
module Particles {

  datatype Particle =
    | Trail(life: int)                 // the ball's tail, white
    | Burst(life: int, color: string)  // a destroyed brick's debris, in the brick's colour

  const TrailLifetime: int := 2 * 10
  const BurstLifetime: int := 2 * 20

  function NewTrail(): Particle { Trail(TrailLifetime) }

  function NewBurst(color: string): Particle { Burst(BurstLifetime, color) }

  /** Half ticks one update takes off a particle's lifetime. */
  function Decay(p: Particle): int
  {
    if p.Trail? then 2 else 1
  }

  /**
   * One update of a particle: the aged particle, and whether it is still
   * alive (false means the particle deleted its drawing and must be dropped).
   */
  function Update(p: Particle): (r: (bool, Particle))
    ensures r.1.life < p.life
    ensures r.0 <==> r.1.life > 0
    ensures r.1.Trail? == p.Trail? && (p.Burst? ==> r.1.color == p.color)
  {
    var q := p.(life := p.life - Decay(p));
    (q.life > 0, q)
  }

  /** The particle after n updates, whatever they returned. */
  function Aged(p: Particle, n: nat): Particle
  {
    if n == 0 then p else Update(Aged(p, n - 1)).1
  }

  lemma {:induction false} AgedLife(p: Particle, n: nat)
    ensures Aged(p, n).life == p.life - n * Decay(p)
    ensures Decay(Aged(p, n)) == Decay(p)
  {
    if n > 0 {
      AgedLife(p, n - 1);
    }
  }

  /** A fresh trail particle survives its first nine updates and expires on its tenth. */
  lemma TrailExpiresOnTenthUpdate()
    ensures forall n: nat :: n < 9 ==> Update(Aged(NewTrail(), n)).0
    ensures !Update(Aged(NewTrail(), 9)).0
  {
    forall n: nat | n < 9
      ensures Update(Aged(NewTrail(), n)).0
    {
      AgedLife(NewTrail(), n);
    }
    AgedLife(NewTrail(), 9);
  }

  /** A fresh burst particle survives its first 39 updates and expires on its 40th. */
  lemma BurstExpiresOnFortiethUpdate(color: string)
    ensures forall n: nat :: n < 39 ==> Update(Aged(NewBurst(color), n)).0
    ensures !Update(Aged(NewBurst(color), 39)).0
  {
    forall n: nat | n < 39
      ensures Update(Aged(NewBurst(color), n)).0
    {
      AgedLife(NewBurst(color), n);
    }
    AgedLife(NewBurst(color), 39);
  }

  /** p is what some particle of ps became in an update that kept it alive. */
  predicate UpdatedFrom(ps: seq<Particle>, p: Particle)
  {
    exists i :: 0 <= i < |ps| && Update(ps[i]) == (true, p)
  }

  /**
   * The particles kept after every particle of ps has been updated once:
   * the updated particles whose update returned true, in their original order.
   */
  function Survivors(ps: seq<Particle>): (r: seq<Particle>)
    ensures |r| <= |ps|
    ensures forall j :: 0 <= j < |r| ==> r[j].life > 0
    ensures forall j :: 0 <= j < |r| ==> UpdatedFrom(ps, r[j])
    ensures forall i :: 0 <= i < |ps| && Update(ps[i]).0 ==> Update(ps[i]).1 in r
  {
    if ps == [] then []
    else
      var rest := Survivors(ps[1..]);
      SurvivorsCons(ps, rest);
      if Update(ps[0]).0 then [Update(ps[0]).1] + rest else rest
  }

  /** The step of Survivors: the contract for the tail extends to the whole list. */
  lemma SurvivorsCons(ps: seq<Particle>, rest: seq<Particle>)
    requires ps != []
    requires |rest| <= |ps| - 1
    requires forall j :: 0 <= j < |rest| ==> rest[j].life > 0
    requires forall j :: 0 <= j < |rest| ==> UpdatedFrom(ps[1..], rest[j])
    requires forall i :: 1 <= i < |ps| && Update(ps[i]).0 ==> Update(ps[i]).1 in rest
    ensures var r := if Update(ps[0]).0 then [Update(ps[0]).1] + rest else rest;
            && |r| <= |ps|
            && (forall j :: 0 <= j < |r| ==> r[j].life > 0)
            && (forall j :: 0 <= j < |r| ==> UpdatedFrom(ps, r[j]))
            && (forall i :: 0 <= i < |ps| && Update(ps[i]).0 ==> Update(ps[i]).1 in r)
  {
    var (alive, q) := Update(ps[0]);
    var tl := ps[1..];
    var r := if alive then [q] + rest else rest;
    forall j | 0 <= j < |r|
      ensures UpdatedFrom(ps, r[j])
    {
      if alive && j == 0 {
        assert Update(ps[0]) == (true, r[j]);
      } else {
        var k := if alive then j - 1 else j;
        assert r[j] == rest[k];
        assert UpdatedFrom(tl, rest[k]);
        var i' :| 0 <= i' < |tl| && Update(tl[i']) == (true, rest[k]);
        assert ps[i' + 1] == tl[i'];
      }
    }
  }

  /** Updating a concatenation keeps the survivors of each part, in order. */
  lemma {:induction false} SurvivorsAppend(a: seq<Particle>, b: seq<Particle>)
    ensures Survivors(a + b) == Survivors(a) + Survivors(b)
  {
    if a == [] {
      assert a + b == b;
    } else {
      assert (a + b)[1..] == a[1..] + b;
      SurvivorsAppend(a[1..], b);
    }
  }

  /** Updating one more particle at the end keeps it iff its update reports it alive. */
  lemma SurvivorsSnoc(ps: seq<Particle>, p: Particle)
    ensures Survivors(ps + [p]) == Survivors(ps) + (if Update(p).0 then [Update(p).1] else [])
  {
    SurvivorsAppend(ps, [p]);
    assert [p][1..] == [];
  }

  /** The survivors of a prefix one particle longer. */
  lemma SurvivorsPrefix(ps: seq<Particle>, i: nat)
    requires i < |ps|
    ensures Survivors(ps[..i + 1]) == Survivors(ps[..i]) + (if Update(ps[i]).0 then [Update(ps[i]).1] else [])
  {
    assert ps[..i + 1] == ps[..i] + [ps[i]];
    SurvivorsSnoc(ps[..i], ps[i]);
  }

  /**
   * The game's particle update: walk the active particles in order, update
   * each once, and keep those whose update reported them alive.
   */
  method UpdateParticles(particles: seq<Particle>) returns (active: seq<Particle>)
    ensures active == Survivors(particles)
    ensures forall j :: 0 <= j < |active| ==> active[j].life > 0
  {
    active := [];
    var i := 0;
    while i < |particles|
      invariant 0 <= i <= |particles|
      invariant active == Survivors(particles[..i])
    {
      var u := Update(particles[i]);
      SurvivorsPrefix(particles, i);
      if u.0 {
        active := active + [u.1];
      }
      i := i + 1;
    }
    assert particles[..i] == particles;
  }
}
